=== FILE: README.md ===
# Résumé enhancement platform — a verified model of its logic

The system takes a résumé PDF and a job description, asks a generative
language model for a match analysis, and shows the result in a four-step
browser wizard. Almost all of it is glue around libraries; this project
models the parts that hold decisions of their own:

- **JsString** (`js_string.dfy`): JavaScript's `String.prototype.trim`, over
  the exact ECMAScript white-space set, and the UTF-16 `length` of a string.
- **JsValue** (`js_value.dfy`): JSON values as the handlers see them, with
  JavaScript truthiness (`!x`, `x || y`), property access on parsed values,
  and string conversion as done by template-literal interpolation.
- **Fences** (`fences.dfy`): the clean-up of the model's reply,
  `raw.replace(/```json|```/g, "").trim()`, as a left-to-right scan that
  tries "```json" before "```" at each position, plus the same scan written
  as a loop.
- **Server** (`server.dfy`): upload admission (PDF media type only, 10 MiB
  limit), `POST /api/parse-resume`, `POST /api/analyze`,
  `POST /api/rewrite-section`, the two prompt templates, and the global
  error handler. Each handler is a pure function from the request to the
  response. The language model, `JSON.parse` and `pdf-parse` are passed in
  as functions.
- **Wizard** (`wizard.dfy`): the `App` component's state record
  `{file, jobDesc, loading, results, error}`. It covers the derived wizard
  `step`, `handleAnalyze` split into its synchronous guard and its awaited
  outcome, `handleReset`, the drop filter and file input of the upload zone,
  and the job-description field. On top of these it has an event-driven run
  of the whole page, the loading view's step ticker, and the score's default
  and colour band.

Where the code and its design description disagree, the model follows the
code:

- The handlers check fields for truthiness, not presence. `0`, `false`,
  `null` and `""` are rejected with 400. Any array or object is accepted and
  interpolated with `String()`, so `[]` passes the check and adds nothing to
  the prompt.
- A file that is not `application/pdf` is refused by the upload filter. That
  error goes to the global error handler and is answered with status 500,
  not 400.
- `/api/analyze` returns whatever JSON value the cleaned reply parses to,
  with status 200. There is no shape or range check, so a `matchScore` of
  150 is passed through as is.
- The fence pattern is global and not anchored. A "```" inside a JSON string
  value is deleted too (`Fences.StripInnerFence`).
- The analyze button is disabled under exactly the condition that makes
  `handleAnalyze` show its validation message. So on the rendered page,
  clicking the button never produces that message. In the state machine a
  click is only an event while the button is enabled; `PressAnalyze` still
  models the guard for any call.
- A comment above `callGemini` speaks of a retry, but the function makes a
  single call. No retry is modelled.

## Model

| member | source | states |
|---|---|---|
| `JsString.Trim` | server.js:142 | the result has no white space at either end and is never longer than the input |
| `JsString.TrimSplit` | server.js:142 | `trim` only removes white space at the two ends: the input equals some white-space run, then the result, then another white-space run |
| `JsString.TrimUnique` | server.js:142 | the converse: if a string is a trimmed core padded with white space on both sides, `trim` returns exactly that core |
| `JsString.TrimIdempotent` | server.js:106 | trimming twice equals trimming once |
| `JsString.TrimKeepsTrimmed` | server.js:106 | a string with no white space at either end is returned unchanged |
| `JsString.TrimEmptyIff` | App.js:324 | `trim` yields "" exactly when the string is all white space, which is the client's test for a blank job description |
| `JsString.Utf16Length` | App.js:338 | the `length` the client compares with 50 counts UTF-16 code units: between one and two per character |
| `JsString.Utf16LengthBmp` | App.js:338 | for text without characters above U+FFFF, `length` is the number of characters |
| `Fences.StripFences` | server.js:106 | `replace(/```json|```/g, "")` never lengthens the text; what it leaves is stated by the lemmas below |
| `Fences.StripLeavesNoFence` | server.js:106 | whatever the reply, the stripped text contains no "```" |
| `Fences.StripKeepsFenceFree` | server.js:106 | text without "```" passes the replacement unchanged |
| `Fences.StripFixpoints` | server.js:106 | the replacement leaves a string unchanged exactly when it has no "```", so the replacement is idempotent |
| `Fences.Clean` | server.js:106 | the text handed to `JSON.parse` contains no "```" and has no white space at either end |
| `Fences.CleanIdempotent` | server.js:106 | cleaning an already cleaned reply changes nothing |
| `Fences.CleanFixpoints` | server.js:106 | cleaning leaves a reply unchanged exactly when it has no "```" and no white space at either end |
| `Fences.CleanPassesPlainText` | server.js:106 | a reply with no backtick and no surrounding white space reaches `JSON.parse` unchanged |
| `Fences.StripPlainHead` | server.js:106 | a character other than a backtick never starts a match: at the front of the text it is kept and the scan continues with the rest |
| `Fences.StripPlainPrefix` | server.js:106 | backtick-free text in front of the rest is copied through, and the scan goes on with the rest |
| `Fences.StripJsonFence` | server.js:106 | a leading "```json" is deleted as a whole |
| `Fences.StripFence` | server.js:106 | a leading "```" that is not followed by "json" is deleted |
| `Fences.StripInnerFence` | server.js:106 | a "```" in the middle of the reply is deleted too: the pattern is global and not anchored |
| `Fences.JsonFencePreferred` | server.js:106 | "```json" is preferred over "```": "```json{}```" becomes "{}", not "json{}" |
| `Fences.FencedReply` | server.js:105-106 | a reply laid out as "```json", a newline, the body, a newline, "```" and a newline, where the body has no backtick and no white space at either end, is reduced to exactly that body |
| `Fences.ReplaceFences` | server.js:106 | the regular-expression scan as a loop with a moving index computes the same text, and that text has no "```" |
| `Server.CheckUpload` | server.js:20-26 | a file is admitted exactly when its media type is exactly application/pdf and it has at most 10·1024·1024 bytes; any other media type is refused by the filter, before the size is considered |
| `Server.ErrorHandler` | server.js:157-160 | an unhandled error gives status 500 with its message, or "Internal server error" when the message is empty |
| `Server.ParseResume` | server.js:42-52 | no file gives 400 with "No PDF file uploaded". Status 200 happens exactly when the file is admitted and extraction succeeds, and then the extracted text and page count are returned. A failed extraction gives 500 with "Failed to parse PDF: " followed by its message. Every other case is a 500 with an error field |
| `Server.RejectedUploadNotExtracted` | server.js:23-25 | a refused upload gets a 500 that does not depend on the extractor, so extraction is never attempted; a non-PDF gets "Only PDF files are allowed" |
| `Server.Splice` | server.js:66-101 | a template literal with two interpolations puts each value, verbatim, at a fixed offset between the fixed parts |
| `Server.AnalyzePrompt` | server.js:66-101 | both the résumé text and the job description appear verbatim: each can be read back exactly from the analysis prompt |
| `Server.RewritePrompt` | server.js:128-139 | the section kind, the job description and the section text appear verbatim between the fixed parts: all three can be read back exactly from the rewrite prompt |
| `JsValue.Field` | server.js:61 | property access `v.key`: a value is found exactly when `v` is an object with that key, and it is then that key's value; every other lookup yields `undefined` |
| `JsValue.FalsyValues` | server.js:62 | the values `!x` rejects are exactly `null`, `false`, `0` and `""`; empty arrays and objects are truthy |
| `JsValue.Display` | server.js:72-75 | interpolation inserts a string verbatim, `null` as "null", an empty array as "", a one-string array as that string, and an object as "[object Object]" |
| `Server.SectionKind` | server.js:129 | an absent or falsy `sectionType` is written as "section"; a non-empty string is written verbatim |
| `Server.AnalyzeGate` | server.js:61-66 | the request is rejected exactly when `resumeText` or `jobDescription` is absent or falsy, with the fixed message; with string fields the prompt is the template filled with both |
| `Server.Analyze` | server.js:59-114 | status 400 exactly when the fields are rejected. Status 200 exactly when the model answers and the cleaned reply parses, and the body is then exactly the parsed value. A failed model call gives 500 with "Analysis failed: " followed by its message. Everything else is a 500 |
| `Server.AnalyzeRejectionSkipsModel` | server.js:62-64 | a rejected analysis request gets the same 400 response whatever the model and the parser would do, so the model is never called |
| `Server.AnalyzeAcceptsNonEmptyText` | server.js:61-66 | any body whose two fields are non-empty strings passes the check, and the prompt is built from them |
| `Server.RewriteGate` | server.js:123-129 | the request is rejected exactly when `sectionText` or `jobDescription` is absent or falsy; with string fields the prompt is the template filled with `sectionType || "section"`, the job description and the section text |
| `Server.Rewrite` | server.js:121-147 | status 400 exactly when the fields are rejected. Status 200 exactly when the model answers, and `rewritten` is then the trimmed reply. A failed model call gives 500 with "Rewrite failed: " followed by its message. Everything else is a 500 |
| `Server.RewriteDefaultsToSection` | server.js:128-139 | for any body with the two required strings and an absent or falsy `sectionType`, the prompt asks to rewrite the resume "section", and the job description and section text appear as given |
| `Server.RewrittenIsTrimmedReply` | server.js:141-142 | `rewritten` is the model's reply minus the white space around it, and nothing else is removed |
| `Wizard.Step` | App.js:321 | the step is in 0..3. It is 3 exactly when the results are truthy, 2 exactly when loading without results, and 0 exactly when nothing has been entered and nothing is pending |
| `Wizard.PressAnalyze` | App.js:323-329 | the validation message is set exactly when the button's disabled condition holds, and then loading is left alone. Otherwise the error is cleared and loading starts. The file, the job description and the results never change |
| `Wizard.ValidationMeansBlankInput` | App.js:324-327 | the validation message is set exactly when there is no file or the job description is empty or all white space |
| `Wizard.AnalyzeDisabled` | App.js:441 | the button is disabled exactly when there is no file or the job description is empty or all white space |
| `Wizard.ServerError` | App.js:350 | `err.response?.data?.error` is taken exactly when the response body has a truthy `error` field, and is then that field |
| `Wizard.ErrorText` | App.js:350 | the message is the server's `error` field if truthy, else the error's `message` if non-empty, else the generic fallback; it is never falsy |
| `Wizard.AnalyzeRequest` | App.js:336-346 | the analyze request is sent exactly when parsing succeeded and the trimmed text has at least 50 UTF-16 code units. It carries the parsed text and the job description unchanged |
| `Wizard.Settle` | App.js:331-353 | afterwards loading is always false, and the file and job description are kept. Success stores the reply as results. A parse failure, a short text and an analysis failure each keep the results and set the matching error |
| `Wizard.ShortResumeSkipsAnalyze` | App.js:338-340 | when the parsed text is rejected, the outcome does not depend on the analyze endpoint, so no analyze request is made |
| `Wizard.FailureShowsBanner` | App.js:349-351 | after any failure the error is truthy, so the banner is shown |
| `Wizard.Reset` | App.js:356-361 | results become null, the file none, the job description and error "", and loading is untouched; when not loading, the step is back to 0 |
| `Wizard.DropFiles` | App.js:52-57 | a drop sets the file to the first dropped file only when its type is exactly application/pdf; otherwise the state is unchanged |
| `Wizard.ChooseFiles` | App.js:67-73 | the file input sets the file to the first chosen file, or to none when the choice is cancelled, without a type check; nothing else changes |
| `Wizard.EditJob` | App.js:425-433 | typing replaces the job description and changes nothing else |
| `Wizard.ApplyKeepsConsistent` | App.js:321-361 | every event the rendered page can deliver keeps the loading invariant |
| `Wizard.InitialConsistent` | App.js:315-321 | the page starts consistent, on step 0 |
| `Wizard.ClickNeedsInputs` | App.js:403-441 | request outcomes arrive only while the loading view is shown and every other event only when it is not; the button can be clicked exactly on the input screen with a file and a non-blank job description |
| `Wizard.RunKeepsConsistent` | App.js:321-361 | in every state reached by events the page can deliver, loading means no results, a cleared error, a file and a non-blank job description |
| `Wizard.ClientRequestPassesServerCheck` | App.js:343-346 | every analyze request the wizard sends passes the server's field check |
| `Wizard.Tick` | App.js:288-291 | a tick raises the active step by at most one, never beyond the last of the six labels, and leaves it unchanged only on the last label |
| `Wizard.StepAfterCapped` | App.js:286-291 | after n ticks from step 0, the active step is min(n, 5) |
| `Wizard.StepAfterMonotone` | App.js:286-291 | the active step never decreases as ticks go by |
| `Wizard.DisplayedScore` | App.js:105 | the shown score is `matchScore` when truthy, and 0 when it is absent or falsy |
| `Wizard.ScoreBand` | App.js:106 | integer scores of 75 or more are green, 50 to 74 are amber, and below 50 are red |
| `Wizard.ScoreBandMonotone` | App.js:13 | a higher score never gets a lower band, for the ring and the number alike |
| `Wizard.MissingScoreShowsZero` | App.js:105-106 | a reply without a usable score is shown as 0 in the red band |

## Left out

- The language-model call (`callGemini`), `JSON.parse` and `pdf-parse` are external. Each is a function parameter that returns a value or an error message. What they compute is not modelled.
- The upload library's parsing, storage and message texts are not modelled. Only the filter and the size limit given in server.js are. The oversize error's text "File too large" is that library's wording. A file sent under a field other than `resume`, or several files, are also not modelled.
- The Express routing, `cors`, `dotenv`, `app.listen`, console logging, and the JSON body parser's own rejections are not modelled. The request body is taken as an already parsed JSON value.
- The health endpoint `GET /api/health` is left out. It always answers `{status: "ok"}` plus the current time, and has no logic beyond the clock reading.
- JavaScript strings are sequences of UTF-16 code units and may hold unpaired surrogates. A Dafny `string` holds Unicode scalar values only, so such strings are not modelled.
- JsValue.Field: inherited properties, the index keys and `length` of arrays and strings, and properties of other non-object values are not modelled. The code only reads named fields (`resumeText`, `jobDescription`, `sectionText`, `sectionType`, `matchScore`, `error`) that none of these provide.
- JSON numbers are modelled as integers. Fractional numbers, JavaScript's exponent notation for very large numbers, and precision loss above 2^53 are not modelled.
- Wizard.ScoreBand: covers integer scores only. A fractional or non-numeric `matchScore` would be compared by JavaScript's coercion rules, which are not modelled.
- String conversion of a parsed object whose own `toString` field is not a function would throw. That case is not modelled; objects always convert to "[object Object]".
- Wizard.AnalyzeRequest: the `text` field of the parse reply is modelled as absent or a string, which is what the server sends. A `null` body, or a truthy `text` that is not a string, makes the client throw a TypeError. A falsy `text` (`null`, `0`, `false`) is treated like an absent one and gives the extraction-failed message. Neither case is modelled.
- Axios error messages are a field of `RequestError` and are not spelled out.
- The timing of the loading ticker (`setInterval` every 2 seconds) is left out, and so is its cleanup on unmount. Only the tick function is modelled.
- React rendering, the result tabs, CSS classes, the copy-to-clipboard button and the SVG ring geometry (floating-point arithmetic with π) are left out.

=== FILE: fences.dfy ===
/**
 Clean-up of the language model's reply before it is parsed as JSON
 (server.js line 106): `raw.replace(/```json|```/g, "").trim()`.

 The global regular expression is matched left to right; at each position the
 alternative "```json" is tried before "```", a match is deleted and scanning
 resumes right after it, and a position where neither matches keeps its
 character. StripFences spells out exactly that scan.
 */
module Fences {
  import opened JsString

  const Fence := "```"
  const JsonFence := "```json"

  /** Three backticks start at position `i` of `s`. */
  predicate FenceAt(s: string, i: int) {
    0 <= i && i + 3 <= |s| && s[i] == '`' && s[i + 1] == '`' && s[i + 2] == '`'
  }

  /** `s` contains no "```" anywhere. */
  predicate NoFence(s: string) {
    forall i :: 0 <= i < |s| ==> !FenceAt(s, i)
  }

  /** `s.replace(/```json|```/g, "")`. */
  function StripFences(s: string): (r: string)
    ensures |r| <= |s|
    decreases |s|
  {
    if s == [] then []
    else if JsonFence <= s then StripFences(s[|JsonFence|..])
    else if Fence <= s then StripFences(s[|Fence|..])
    else [s[0]] + StripFences(s[1..])
  }

  /** The cleaned reply handed to `JSON.parse`. */
  function Clean(raw: string): (r: string)
    ensures NoFence(r)
    ensures IsTrimmed(r)
  {
    StripLeavesNoFence(raw);
    TrimKeepsNoFence(StripFences(raw));
    Trim(StripFences(raw))
  }

  // ----- basic facts about fences -----

  lemma FenceAtStart(s: string)
    ensures Fence <= s <==> FenceAt(s, 0)
  {
    if FenceAt(s, 0) {
      assert s[..3] == Fence;
    }
  }

  /** Prepending a character shifts every fence position by one. */
  lemma NoFenceCons(c: char, t: string)
    requires NoFence(t)
    requires !FenceAt([c] + t, 0)
    ensures NoFence([c] + t)
  {
    forall i
      ensures !FenceAt([c] + t, i)
    {
      if i > 0 && FenceAt([c] + t, i) {
        assert FenceAt(t, i - 1);
      }
    }
  }

  /** A fence inside a part is a fence of the whole. */
  lemma NoFenceInfix(a: string, b: string, c: string)
    requires NoFence(a + (b + c))
    ensures NoFence(b)
  {
    forall i
      ensures !FenceAt(b, i)
    {
      if FenceAt(b, i) {
        assert FenceAt(a + (b + c), |a| + i);
      }
    }
  }

  /** A string without backticks is fence free. */
  lemma NoBacktickNoFence(s: string)
    requires '`' !in s
    ensures NoFence(s)
  {
  }

  lemma TrimKeepsNoFence(s: string)
    requires NoFence(s)
    ensures NoFence(Trim(s))
  {
    var lead, trail := TrimSplit(s);
    NoFenceInfix(lead, Trim(s), trail);
  }

  // ----- the scan -----

  /** If the stripped text starts with two backticks, so did the input: a
      backtick is only kept when the next one is not the start of a fence. */
  lemma StripTwoTicks(t: string)
    requires |StripFences(t)| >= 2
    requires StripFences(t)[0] == '`' && StripFences(t)[1] == '`'
    ensures |t| >= 2 && t[0] == '`' && t[1] == '`'
  {
    if !(Fence <= t) {
      assert StripFences(t) == [t[0]] + StripFences(t[1..]);
      var u := t[1..];
      if !(Fence <= u) {
        assert StripFences(u) == [u[0]] + StripFences(u[1..]);
      }
    }
  }

  /** Whatever the input, the stripped text contains no "```": every fence the
      left-to-right scan meets is removed, and removing one never glues two
      kept backtick runs into a new fence. */
  lemma {:induction false} StripLeavesNoFence(s: string)
    ensures NoFence(StripFences(s))
    decreases |s|
  {
    if s == [] {
    } else if JsonFence <= s {
      StripLeavesNoFence(s[|JsonFence|..]);
    } else if Fence <= s {
      StripLeavesNoFence(s[|Fence|..]);
    } else {
      var t := s[1..];
      StripLeavesNoFence(t);
      assert StripFences(s) == [s[0]] + StripFences(t);
      if FenceAt(StripFences(s), 0) {
        StripTwoTicks(t);
        FenceAtStart(s);
        assert false;
      }
      NoFenceCons(s[0], StripFences(t));
    }
  }

  /** Text without fences is left alone. */
  lemma {:induction false} StripKeepsFenceFree(s: string)
    requires NoFence(s)
    ensures StripFences(s) == s
    decreases |s|
  {
    if s != [] {
      FenceAtStart(s);
      assert NoFence(s[1..]) by {
        forall i
          ensures !FenceAt(s[1..], i)
        {
          if FenceAt(s[1..], i) {
            assert FenceAt(s, i + 1);
          }
        }
      }
      StripKeepsFenceFree(s[1..]);
    }
  }

  /** The strings stripping leaves unchanged are exactly the fence-free ones,
      so stripping is idempotent. */
  lemma StripFixpoints(s: string)
    ensures StripFences(s) == s <==> NoFence(s)
    ensures StripFences(StripFences(s)) == StripFences(s)
  {
    StripLeavesNoFence(s);
    StripLeavesNoFence(StripFences(s));
    if NoFence(s) {
      StripKeepsFenceFree(s);
    }
    StripKeepsFenceFree(StripFences(s));
  }

  /** Cleaning is idempotent. */
  lemma CleanIdempotent(raw: string)
    ensures Clean(Clean(raw)) == Clean(raw)
  {
    var c := Clean(raw);
    StripKeepsFenceFree(c);
    TrimKeepsTrimmed(c);
  }

  /** Cleaning returns its input unchanged exactly when the input is fence
      free and has no surrounding white space; in particular clean JSON text
      without backticks passes through untouched. */
  lemma CleanFixpoints(raw: string)
    ensures Clean(raw) == raw <==> NoFence(raw) && IsTrimmed(raw)
  {
    if NoFence(raw) && IsTrimmed(raw) {
      StripKeepsFenceFree(raw);
      TrimKeepsTrimmed(raw);
    }
  }

  /** In particular a reply that already is bare JSON text, with no backtick
      and no surrounding white space, reaches `JSON.parse` unchanged. */
  lemma CleanPassesPlainText(raw: string)
    requires '`' !in raw && IsTrimmed(raw)
    ensures Clean(raw) == raw
  {
    NoBacktickNoFence(raw);
    CleanFixpoints(raw);
  }

  /** A character that is not a backtick is copied through. */
  lemma StripPlainHead(c: char, t: string)
    requires c != '`'
    ensures StripFences([c] + t) == [c] + StripFences(t)
  {
    assert ([c] + t)[0] == c;
    assert ([c] + t)[1..] == t;
  }

  /** Text without backticks in front of the rest is copied through, and
      the scan carries on with the rest. */
  lemma {:induction false} StripPlainPrefix(a: string, b: string)
    requires '`' !in a
    ensures StripFences(a + b) == a + StripFences(b)
    decreases |a|
  {
    if a == [] {
      assert a + b == b;
    } else {
      var c, a' := a[0], a[1..];
      assert c in a;
      assert a + b == [c] + (a' + b);
      StripPlainHead(c, a' + b);
      StripPlainPrefix(a', b);
      assert [c] + (a' + StripFences(b)) == a + StripFences(b);
    }
  }

  /** A leading "```json" is removed as a whole. */
  lemma StripJsonFence(t: string)
    ensures StripFences(JsonFence + t) == StripFences(t)
  {
    assert (JsonFence + t)[..|JsonFence|] == JsonFence;
    assert (JsonFence + t)[|JsonFence|..] == t;
  }

  /** A leading "```" not followed by "json" is removed. */
  lemma StripFence(t: string)
    requires !("json" <= t)
    ensures StripFences(Fence + t) == StripFences(t)
  {
    assert (Fence + t)[..|Fence|] == Fence;
    assert (Fence + t)[|Fence|..] == t;
  }

  /** The pattern is global and unanchored: a fence in the middle of the
      reply, inside a JSON string value say, is deleted as well. */
  lemma StripInnerFence(a: string, b: string)
    requires '`' !in a
    requires !("json" <= b)
    ensures StripFences(a + Fence + b) == a + StripFences(b)
  {
    assert a + Fence + b == a + (Fence + b);
    StripPlainPrefix(a, Fence + b);
    StripFence(b);
  }

  /** The preference for "```json" over "```" at the same position matters:
      trying "```" first would leave the word "json" behind. */
  lemma JsonFencePreferred()
    ensures StripFences("```json{}```") == "{}"
  {
    assert "```json{}```" == JsonFence + ("{}" + (Fence + ""));
    StripJsonFence("{}" + (Fence + ""));
    StripPlainPrefix("{}", Fence + "");
    StripFence("");
  }

  /** A reply wrapped in a markdown code block is reduced to the bare text. */
  lemma FencedReply(body: string)
    requires '`' !in body && IsTrimmed(body)
    ensures Clean(JsonFence + "\n" + body + "\n" + Fence + "\n") == body
  {
    var inner := "\n" + body + "\n";
    var reply := JsonFence + "\n" + body + "\n" + Fence + "\n";
    assert reply == JsonFence + (inner + (Fence + "\n"));
    assert '`' !in inner;
    StripJsonFence(inner + (Fence + "\n"));
    StripPlainPrefix(inner, Fence + "\n");
    StripFence("\n");
    assert "\n" == "\n" + [];
    StripPlainPrefix("\n", []);
    assert StripFences(reply) == "\n" + body + "\n\n";
    assert AllSpace("\n") && AllSpace("\n\n") by {
      assert IsJsSpace('\n');
    }
    TrimUnique("\n" + body + "\n\n", "\n", body, "\n\n");
  }

  /** The regular-expression engine's scan written as a loop over the input,
      with the position `i` playing the role of `lastIndex`. */
  method ReplaceFences(s: string) returns (out: string)
    ensures out == StripFences(s)
    ensures NoFence(out)
  {
    out := [];
    var i := 0;
    while i < |s|
      invariant 0 <= i <= |s|
      invariant out + StripFences(s[i..]) == StripFences(s)
    {
      var rest := s[i..];
      if JsonFence <= rest {
        assert rest[|JsonFence|..] == s[i + |JsonFence|..];
        i := i + |JsonFence|;
      } else if Fence <= rest {
        assert rest[|Fence|..] == s[i + |Fence|..];
        i := i + |Fence|;
      } else {
        assert rest[1..] == s[i + 1..];
        assert StripFences(rest) == [s[i]] + StripFences(s[i + 1..]);
        assert (out + [s[i]]) + StripFences(s[i + 1..]) == out + ([s[i]] + StripFences(s[i + 1..]));
        out := out + [s[i]];
        i := i + 1;
      }
    }
    StripLeavesNoFence(s);
  }
}

=== FILE: js_string.dfy ===
/**
 String primitives of the JavaScript runtime that the server and the UI rely on:
 `String.prototype.trim` and the UTF-16 `length` of a string.

 A Dafny `string` is a sequence of Unicode scalar values; JavaScript strings are
 sequences of UTF-16 code units. Every character `trim` removes lies in the
 Basic Multilingual Plane, so trimming is the same on both views; `length`
 differs for characters above U+FFFF and is modelled by `Utf16Length`.
 */
module JsString {

  /** The WhiteSpace and LineTerminator code points of ECMAScript: exactly the
      characters `trim` removes from either end of a string. */
  predicate IsJsSpace(c: char) {
    var n := c as int;
    || (0x09 <= n <= 0x0D) || n == 0x20 || n == 0xA0 || n == 0x1680
    || (0x2000 <= n <= 0x200A) || n == 0x2028 || n == 0x2029 || n == 0x202F
    || n == 0x205F || n == 0x3000 || n == 0xFEFF
  }

  // The trimming functions are stated for an arbitrary character class
  // `space` and instantiated with IsJsSpace; the proofs then never need to
  // look inside the (large) definition of IsJsSpace.

  predicate AllIn(s: string, space: char -> bool) {
    forall i :: 0 <= i < |s| ==> space(s[i])
  }

  /** Neither end of `s` belongs to `space`. */
  predicate TrimmedBy(s: string, space: char -> bool) {
    s == [] || (!space(s[0]) && !space(s[|s| - 1]))
  }

  /** `s` with its leading `space` characters removed: what is dropped is all
      space, and what is kept does not start with space. */
  function TrimStart(s: string, space: char -> bool): (r: string)
    ensures |r| <= |s| && s == s[..|s| - |r|] + r
    ensures AllIn(s[..|s| - |r|], space)
    ensures r == [] || !space(r[0])
  {
    if |s| > 0 && space(s[0]) then TrimStart(s[1..], space) else s
  }

  /** `s` with its trailing `space` characters removed. */
  function TrimEnd(s: string, space: char -> bool): (r: string)
    ensures |r| <= |s| && s == r + s[|r|..]
    ensures AllIn(s[|r|..], space)
    ensures r == [] || !space(r[|r| - 1])
  {
    if |s| > 0 && space(s[|s| - 1]) then
      var r := TrimEnd(s[..|s| - 1], space);
      assert s[|r|..] == s[..|s| - 1][|r|..] + [s[|s| - 1]];
      r
    else s
  }

  function TrimBy(s: string, space: char -> bool): (r: string)
    ensures TrimmedBy(r, space)
    ensures |r| <= |s|
  {
    var t := TrimStart(s, space);
    var r := TrimEnd(t, space);
    assert r != [] ==> r[0] == t[0];
    r
  }

  lemma TrimBySplit(s: string, space: char -> bool) returns (lead: string, trail: string)
    ensures s == lead + (TrimBy(s, space) + trail)
    ensures AllIn(lead, space) && AllIn(trail, space)
  {
    var t := TrimStart(s, space);
    var r := TrimEnd(t, space);
    lead := s[..|s| - |t|];
    trail := t[|r|..];
    assert TrimBy(s, space) == r;
  }

  lemma {:induction false} TrimStartSkips(p: string, t: string, space: char -> bool)
    requires AllIn(p, space)
    ensures TrimStart(p + t, space) == TrimStart(t, space)
    decreases |p|
  {
    if p != [] {
      assert (p + t)[0] == p[0] && space(p[0]);
      assert (p + t)[1..] == p[1..] + t;
      TrimStartSkips(p[1..], t, space);
    } else {
      assert p + t == t;
    }
  }

  lemma {:induction false} TrimEndSkips(t: string, q: string, space: char -> bool)
    requires AllIn(q, space)
    ensures TrimEnd(t + q, space) == TrimEnd(t, space)
    decreases |q|
  {
    if q != [] {
      assert (t + q)[|t + q| - 1] == q[|q| - 1] && space(q[|q| - 1]);
      assert (t + q)[..|t + q| - 1] == t + q[..|q| - 1];
      TrimEndSkips(t, q[..|q| - 1], space);
    } else {
      assert t + q == t;
    }
  }

  lemma TrimStartAllSpace(s: string, space: char -> bool)
    requires AllIn(s, space)
    ensures TrimStart(s, space) == []
  {
  }

  lemma TrimByUnique(s: string, lead: string, r: string, trail: string, space: char -> bool)
    requires s == lead + r + trail
    requires AllIn(lead, space) && AllIn(trail, space) && TrimmedBy(r, space)
    ensures TrimBy(s, space) == r
  {
    if r == [] {
      assert AllIn(s, space) by {
        assert s == lead + trail;
      }
      TrimStartAllSpace(s, space);
    } else {
      assert TrimStart(s, space) == r + trail by {
        assert s == lead + (r + trail);
        TrimStartSkips(lead, r + trail, space);
      }
      TrimEndSkips(r, trail, space);
    }
  }

  predicate AllSpace(s: string) {
    AllIn(s, IsJsSpace)
  }

  /** Neither end of `s` is white space. */
  predicate IsTrimmed(s: string) {
    TrimmedBy(s, IsJsSpace)
  }

  /** `String.prototype.trim`. */
  function Trim(s: string): (r: string)
    ensures IsTrimmed(r)
    ensures |r| <= |s|
  {
    TrimBy(s, IsJsSpace)
  }

  /** Trimming only cuts white space off the two ends: the input is the
      result padded by white space on either side. */
  lemma TrimSplit(s: string) returns (lead: string, trail: string)
    ensures s == lead + (Trim(s) + trail)
    ensures AllSpace(lead) && AllSpace(trail)
  {
    lead, trail := TrimBySplit(s, IsJsSpace);
  }

  /** The converse of TrimSplit: whenever `s` is a trimmed string padded with
      white space, `trim` returns exactly that string. Together the two
      lemmas characterise `trim` completely. */
  lemma TrimUnique(s: string, lead: string, r: string, trail: string)
    requires s == lead + r + trail
    requires AllSpace(lead) && AllSpace(trail) && IsTrimmed(r)
    ensures Trim(s) == r
  {
    TrimByUnique(s, lead, r, trail, IsJsSpace);
  }

  /** `trim` is idempotent. */
  lemma TrimIdempotent(s: string)
    ensures Trim(Trim(s)) == Trim(s)
  {
    var r := Trim(s);
    assert r == [] + r + [];
    TrimUnique(r, [], r, []);
  }

  /** A string already free of surrounding white space is returned unchanged. */
  lemma TrimKeepsTrimmed(s: string)
    requires IsTrimmed(s)
    ensures Trim(s) == s
  {
    assert s == [] + s + [];
    TrimUnique(s, [], s, []);
  }

  /** `trim` yields the empty string exactly when the input is all white space
      (the UI's "whitespace-only job description" test). */
  lemma TrimEmptyIff(s: string)
    ensures Trim(s) == [] <==> AllSpace(s)
  {
    var lead, trail := TrimSplit(s);
    if AllSpace(s) {
      assert s == s + [] + [];
      TrimUnique(s, s, [], []);
    }
  }

  /** The value of JavaScript's `length`: one UTF-16 code unit per character
      of the Basic Multilingual Plane, two (a surrogate pair) above it. */
  function Utf16Length(s: string): (n: nat)
    ensures |s| <= n <= 2 * |s|
  {
    if s == [] then 0
    else (if s[0] as int > 0xFFFF then 2 else 1) + Utf16Length(s[1..])
  }

  /** Characters outside the supplementary planes count once each. */
  lemma {:induction false} Utf16LengthBmp(s: string)
    requires forall i :: 0 <= i < |s| ==> s[i] as int <= 0xFFFF
    ensures Utf16Length(s) == |s|
  {
    if s != [] {
      assert forall i :: 0 <= i < |s[1..]| ==> s[1..][i] == s[i + 1];
      Utf16LengthBmp(s[1..]);
    }
  }
}

=== FILE: js_value.dfy ===
/**
 The JavaScript values that cross the HTTP boundary: JSON request bodies,
 JSON responses and the fields the handlers read out of them, together with
 the two coercions the code applies to such values — truthiness (`!x`,
 `x || y`) and string conversion (template-literal interpolation `${x}`).

 JSON numbers are modelled as integers.
 */
module JsValue {

  datatype Option<+T> = None | Some(value: T)

  datatype Json =
    | JNull
    | JBool(b: bool)
    | JNum(n: int)
    | JStr(s: string)
    | JArr(items: seq<Json>)
    | JObj(fields: map<string, Json>)

  /** JavaScript truthiness of a JSON value. `undefined` (an absent field) is
      `None` in `Option<Json>` and is falsy; see TruthyField. */
  predicate Truthy(v: Json) {
    match v
    case JNull => false
    case JBool(b) => b
    case JNum(n) => n != 0
    case JStr(s) => s != ""
    case JArr(_) => true
    case JObj(_) => true
  }

  /** The falsy JSON values are exactly `null`, `false`, `0` and `""`; every
      other value, including an empty array or object, is truthy. */
  lemma FalsyValues(v: Json)
    ensures !Truthy(v) <==> v == JNull || v == JBool(false) || v == JNum(0) || v == JStr("")
  {
  }

  /** Truthiness of a possibly absent value. */
  predicate TruthyField(v: Option<Json>) {
    v.Some? && Truthy(v.value)
  }

  /** Property access `v.key` on a parsed JSON value: only objects have own
      fields; every other value yields `undefined`. */
  function Field(v: Json, key: string): (r: Option<Json>)
    ensures r.Some? <==> v.JObj? && key in v.fields
    ensures r.Some? ==> r.value == v.fields[key]
  {
    if v.JObj? && key in v.fields then Some(v.fields[key]) else None
  }

  /** A JSON object with one string field, as built by `{ error: msg }`. */
  function ErrorObject(msg: string): (r: Json)
    ensures Field(r, "error") == Some(JStr(msg))
  {
    JObj(map["error" := JStr(msg)])
  }

  function DigitChar(d: int): char
    requires 0 <= d < 10
  {
    "0123456789"[d]
  }

  /** Decimal spelling of a natural number, most significant digit first. */
  function NatDecimal(n: nat): (r: string)
    ensures r != []
    ensures forall i :: 0 <= i < |r| ==> '0' <= r[i] <= '9'
  {
    if n < 10 then [DigitChar(n)] else NatDecimal(n / 10) + [DigitChar(n % 10)]
  }

  /** `String(n)` for an integer. */
  function IntDecimal(n: int): string {
    if n < 0 then "-" + NatDecimal(-n) else NatDecimal(n)
  }

  /** `String(v)`, the text a template literal inserts for `${v}`: strings
      verbatim, `null`/booleans/numbers spelt out, arrays joined by commas
      with `null` elements shown empty, objects as "[object Object]". */
  function Display(v: Json): (r: string)
    ensures v.JStr? ==> r == v.s
    ensures v.JNull? ==> r == "null"
    ensures v.JArr? && v.items == [] ==> r == ""
    ensures v.JArr? && |v.items| == 1 && v.items[0].JStr? ==> r == v.items[0].s
    ensures v.JObj? ==> r == "[object Object]"
  {
    match v
    case JNull => "null"
    case JBool(b) => if b then "true" else "false"
    case JNum(n) => IntDecimal(n)
    case JStr(s) => s
    case JArr(items) =>
      JoinComma(seq(|items|, i requires 0 <= i < |items| =>
        if items[i].JNull? then "" else Display(items[i])))
    case JObj(_) => "[object Object]"
  }

  /** `Array.prototype.join(",")` on already converted elements. */
  function JoinComma(parts: seq<string>): string {
    if |parts| == 0 then ""
    else if |parts| == 1 then parts[0]
    else parts[0] + "," + JoinComma(parts[1..])
  }
}

=== FILE: server.dfy ===
/**
 The request handlers of the back end (server.js): upload admission and
 `/api/parse-resume`, `/api/analyze` and `/api/rewrite-section`, and the
 global error handler they fall back on.

 Each handler is a pure function from the request to the HTTP response. The
 collaborators it awaits — the language model (`callGemini`), `JSON.parse`
 and `pdf-parse` — are passed in as functions returning an Outcome, so a
 handler that answers without consulting one of them provably does not
 depend on it.
 */
module Server {
  import opened JsString
  import opened JsValue
  import Fences

  /** What an awaited collaborator produced: a value, or the message of the
      error it threw. */
  datatype Outcome<+T> = Ok(value: T) | Err(message: string)

  /** An HTTP status code with a JSON body. */
  datatype Response = Response(status: int, body: Json)

  /** `res.status(status).json({ error: msg })`. */
  function ErrorResponse(status: int, msg: string): Response {
    Response(status, ErrorObject(msg))
  }

  /** The catch-all error middleware: status 500 with the error's message,
      or a generic text when the message is empty. */
  function ErrorHandler(message: string): (r: Response)
    ensures r.status == 500
    ensures message != "" ==> Field(r.body, "error") == Some(JStr(message))
    ensures message == "" ==> Field(r.body, "error") == Some(JStr("Internal server error"))
  {
    ErrorResponse(500, if message != "" then message else "Internal server error")
  }

  // ---------------------------------------------------------------------
  // Upload admission and /api/parse-resume
  // ---------------------------------------------------------------------

  newtype byte = x: int | 0 <= x < 256

  /** A file part of the multipart request, sent under the field `resume`. */
  datatype Upload = Upload(mimeType: string, content: seq<byte>)

  const PdfMime := "application/pdf"
  const MaxUploadBytes := 10 * 1024 * 1024

  datatype UploadVerdict = Accepted | NotPdf | TooLarge

  /** The upload middleware's decision on a file: the file filter runs first
      and admits only the exact media type application/pdf; an admitted file
      is then held to the 10 MiB size limit. */
  function CheckUpload(f: Upload): (v: UploadVerdict)
    ensures v == Accepted <==> f.mimeType == PdfMime && |f.content| <= MaxUploadBytes
    ensures v == NotPdf <==> f.mimeType != PdfMime
  {
    if f.mimeType != PdfMime then NotPdf
    else if |f.content| > MaxUploadBytes then TooLarge
    else Accepted
  }

  /** What `pdf-parse` extracts: the text and the page count. */
  datatype PdfText = PdfText(text: string, pages: nat)

  /** POST /api/parse-resume. A rejected upload reaches the error handler
      (status 500); a request without a file is answered 400; otherwise the
      extractor's text and page count, or its error, are returned. */
  function ParseResume(upload: Option<Upload>, extract: seq<byte> -> Outcome<PdfText>): (r: Response)
    ensures r.status == 400 <==> upload.None?
    ensures r.status == 200 <==>
      upload.Some? && CheckUpload(upload.value) == Accepted && extract(upload.value.content).Ok?
    ensures r.status == 200 ==>
      var pdf := extract(upload.value.content).value;
      && Field(r.body, "text") == Some(JStr(pdf.text))
      && Field(r.body, "pages") == Some(JNum(pdf.pages))
    ensures upload.None? ==> r == ErrorResponse(400, "No PDF file uploaded")
    ensures upload.Some? && CheckUpload(upload.value) == Accepted && extract(upload.value.content).Err? ==>
      r == ErrorResponse(500, "Failed to parse PDF: " + extract(upload.value.content).message)
    ensures r.status == 500 ==> Field(r.body, "error").Some?
    ensures r.status in {200, 400, 500}
  {
    match upload
    case None => ErrorResponse(400, "No PDF file uploaded")
    case Some(f) =>
      match CheckUpload(f)
      case NotPdf => ErrorHandler("Only PDF files are allowed")
      case TooLarge => ErrorHandler("File too large")
      case Accepted =>
        match extract(f.content)
        case Ok(pdf) => Response(200, JObj(map["text" := JStr(pdf.text), "pages" := JNum(pdf.pages)]))
        case Err(m) => ErrorResponse(500, "Failed to parse PDF: " + m)
  }

  /** A file the middleware refuses is refused before extraction: the
      response does not depend on the extractor at all. */
  lemma RejectedUploadNotExtracted(f: Upload, e1: seq<byte> -> Outcome<PdfText>, e2: seq<byte> -> Outcome<PdfText>)
    requires CheckUpload(f) != Accepted
    ensures ParseResume(Some(f), e1) == ParseResume(Some(f), e2)
    ensures ParseResume(Some(f), e1).status == 500
    ensures f.mimeType != PdfMime ==>
      Field(ParseResume(Some(f), e1).body, "error") == Some(JStr("Only PDF files are allowed"))
  {
  }

  // ---------------------------------------------------------------------
  // Prompt templates
  // ---------------------------------------------------------------------

  const AnalyzeHead :=
    "\nYou are an expert resume coach, ATS specialist, and career advisor.\n\n"
    + "Analyze the following resume against the job description and return a comprehensive JSON object.\n\n"
    + "RESUME:\n"

  const AnalyzeMid := "\n\nJOB DESCRIPTION:\n"

  const AnalyzeTail :=
    "\n\nReturn ONLY a valid JSON object (no markdown, no extra text) with this exact structure:\n"
    + "{\n"
    + "  \"matchScore\": <integer 0-100>,\n"
    + "  \"matchScoreReason\": \"<1-2 sentence explanation of the score>\",\n"
    + "  \"optimizedResume\": \"<full rewritten resume text, well-formatted with sections, optimized for this job>\",\n"
    + "  \"keyChanges\": [\"<change 1>\", \"<change 2>\", ...],\n"
    + "  \"skillGaps\": [\n"
    + "    {\n"
    + "      \"skill\": \"<skill name>\",\n"
    + "      \"importance\": \"<high|medium|low>\",\n"
    + "      \"suggestion\": \"<how to acquire or demonstrate this skill>\"\n"
    + "    }\n"
    + "  ],\n"
    + "  \"atsFlags\": [\n"
    + "    {\n"
    + "      \"issue\": \"<ATS issue description>\",\n"
    + "      \"severity\": \"<high|medium|low>\",\n"
    + "      \"fix\": \"<how to fix it>\"\n"
    + "    }\n"
    + "  ],\n"
    + "  \"coverLetter\": \"<a full tailored cover letter for this job, professional and personalized>\",\n"
    + "  \"topKeywords\": [\"<keyword1>\", \"<keyword2>\", ...],\n"
    + "  \"missingKeywords\": [\"<keyword1>\", \"<keyword2>\", ...]\n"
    + "}\n"

  /** A template literal with two interpolations, `head${a}mid${b}tail`:
      each value lands verbatim at a fixed offset between the fixed parts. */
  function Splice(head: string, a: string, mid: string, b: string, tail: string): (p: string)
    ensures |p| == |head| + |a| + |mid| + |b| + |tail|
    ensures p[..|head|] == head
    ensures p[|head|..|head| + |a|] == a
    ensures p[|head| + |a|..|head| + |a| + |mid|] == mid
    ensures p[|head| + |a| + |mid|..|p| - |tail|] == b
    ensures p[|p| - |tail|..] == tail
  {
    var p := head + a + mid + b + tail;
    assert p == head + (a + (mid + (b + tail)));
    p
  }

  /** Reads the two interpolated values back out of `p`, given the fixed
      parts and the length of the first value; None when `p` does not have
      the template's shape. */
  function Unsplice(p: string, head: string, aLength: nat, mid: string, tail: string): Option<(string, string)> {
    var i := |head| + aLength;
    var j := i + |mid|;
    if j + |tail| <= |p| && p[..|head|] == head && p[i..j] == mid && p[|p| - |tail|..] == tail
    then Some((p[|head|..i], p[j..|p| - |tail|]))
    else None
  }

  /** Splicing loses nothing: both values are recovered exactly. */
  lemma UnspliceSplice(head: string, a: string, mid: string, b: string, tail: string)
    ensures Unsplice(Splice(head, a, mid, b, tail), head, |a|, mid, tail) == Some((a, b))
  {
  }

  /** A template literal with three interpolations,
      `head${a}mid${b}sep${c}tail`. */
  function Splice3(head: string, a: string, mid: string, b: string, sep: string, c: string, tail: string): (p: string)
    ensures |p| == |head| + |a| + |mid| + |b| + |sep| + |c| + |tail|
    ensures p == Splice(head, a, mid, b, sep + c + tail)
  {
    Splice(head, a, mid, b, sep + c + tail)
  }

  /** Reads the three interpolated values back out of `p`, given the fixed
      parts and the lengths of the first two values; None when `p` does not
      have the template's shape. */
  function Unsplice3(p: string, head: string, aLength: nat, mid: string, bLength: nat, sep: string, tail: string)
    : Option<(string, string, string)>
  {
    var j := |head| + aLength + |mid|;
    var k := j + bLength;
    var l := k + |sep|;
    if l + |tail| <= |p| && p[..|head|] == head && p[|head| + aLength..j] == mid
       && p[k..l] == sep && p[|p| - |tail|..] == tail
    then Some((p[|head|..|head| + aLength], p[j..k], p[l..|p| - |tail|]))
    else None
  }

  /** Splicing three values loses nothing: all three are recovered exactly. */
  lemma Unsplice3Splice3(head: string, a: string, mid: string, b: string, sep: string, c: string, tail: string)
    ensures Unsplice3(Splice3(head, a, mid, b, sep, c, tail), head, |a|, mid, |b|, sep, tail) == Some((a, b, c))
  {
    var p := Splice3(head, a, mid, b, sep, c, tail);
    var k := |head| + |a| + |mid| + |b|;
    assert p[k..] == sep + c + tail;
    SuffixParts(p, k, sep, c, tail);
  }

  /** The parts of a three-part suffix sit at their offsets. */
  lemma SuffixParts(p: string, k: nat, sep: string, c: string, tail: string)
    requires k <= |p| && p[k..] == sep + c + tail
    ensures p[k..k + |sep|] == sep
    ensures p[k + |sep|..|p| - |tail|] == c
    ensures p[|p| - |tail|..] == tail
  {
    var q := p[k..];
    assert p[k..k + |sep|] == q[..|sep|];
    assert p[k + |sep|..|p| - |tail|] == q[|sep|..|q| - |tail|];
    assert p[|p| - |tail|..] == q[|q| - |tail|..];
  }

  /** The full-analysis prompt: the résumé after the fixed head, the job
      description between the fixed middle and tail. Both texts appear
      verbatim: each can be read back from the prompt exactly. */
  function AnalyzePrompt(resume: string, job: string): (p: string)
    ensures Unsplice(p, AnalyzeHead, |resume|, AnalyzeMid, AnalyzeTail) == Some((resume, job))
  {
    UnspliceSplice(AnalyzeHead, resume, AnalyzeMid, job, AnalyzeTail);
    Splice(AnalyzeHead, resume, AnalyzeMid, job, AnalyzeTail)
  }

  /** The rewrite prompt: the section kind in the first sentence, then the
      job description, then the original section text. All three appear
      verbatim: each can be read back from the prompt exactly. */
  function RewritePrompt(kind: string, job: string, section: string): (p: string)
    ensures Unsplice3(p, RewriteHead, |kind|, RewriteMid, |job|, RewriteSection, RewriteTail)
            == Some((kind, job, section))
  {
    Unsplice3Splice3(RewriteHead, kind, RewriteMid, job, RewriteSection, section, RewriteTail);
    Splice3(RewriteHead, kind, RewriteMid, job, RewriteSection, section, RewriteTail)
  }

  const RewriteHead := "\nYou are an expert resume writer. Rewrite the following resume "

  const RewriteMid :=
    " to better align with the job description.\n"
    + "Use strong action verbs, quantify achievements where possible, and incorporate relevant keywords naturally.\n\n"
    + "JOB DESCRIPTION:\n"

  const RewriteSection := "\n\nORIGINAL SECTION:\n"

  const RewriteTail := "\n\nReturn ONLY the rewritten section text, no explanations.\n"

  /** `sectionType || "section"` as interpolated into the rewrite prompt. */
  function SectionKind(sectionType: Option<Json>): (k: string)
    ensures !TruthyField(sectionType) ==> k == "section"
    ensures TruthyField(sectionType) && sectionType.value.JStr? ==> k == sectionType.value.s
  {
    if TruthyField(sectionType) then Display(sectionType.value) else "section"
  }

  // ---------------------------------------------------------------------
  // /api/analyze and /api/rewrite-section
  // ---------------------------------------------------------------------

  /** The outcome of a handler's field check: a 400 answer, or the prompt
      it goes on to send to the model. */
  datatype Gate = Reject400(message: string) | Proceed(prompt: string)

  const AnalyzeRequired := "resumeText and jobDescription are required"
  const RewriteRequired := "sectionText and jobDescription are required"

  /** The field check and prompt construction of POST /api/analyze. */
  function AnalyzeGate(body: Json): (g: Gate)
    ensures g.Reject400? <==>
      !TruthyField(Field(body, "resumeText")) || !TruthyField(Field(body, "jobDescription"))
    ensures g.Reject400? ==> g.message == AnalyzeRequired
    ensures g.Proceed? && Field(body, "resumeText").value.JStr? && Field(body, "jobDescription").value.JStr? ==>
      g.prompt == AnalyzePrompt(Field(body, "resumeText").value.s, Field(body, "jobDescription").value.s)
  {
    var resume := Field(body, "resumeText");
    var job := Field(body, "jobDescription");
    if !TruthyField(resume) || !TruthyField(job) then Reject400(AnalyzeRequired)
    else Proceed(AnalyzePrompt(Display(resume.value), Display(job.value)))
  }

  /** POST /api/analyze. Missing or empty fields are answered 400; otherwise
      the model's reply is cleaned of code fences and parsed, and whatever
      JSON it holds is returned as is (no schema or range check). Any error
      of the model call or of the parse becomes a 500. */
  function Analyze(body: Json, complete: string -> Outcome<string>, parse: string -> Outcome<Json>): (r: Response)
    ensures r.status == 400 <==> AnalyzeGate(body).Reject400?
    ensures r.status == 200 <==>
      && AnalyzeGate(body).Proceed?
      && complete(AnalyzeGate(body).prompt).Ok?
      && parse(Fences.Clean(complete(AnalyzeGate(body).prompt).value)).Ok?
    ensures r.status == 200 ==>
      r.body == parse(Fences.Clean(complete(AnalyzeGate(body).prompt).value)).value
    ensures AnalyzeGate(body).Proceed? && complete(AnalyzeGate(body).prompt).Err? ==>
      r == ErrorResponse(500, "Analysis failed: " + complete(AnalyzeGate(body).prompt).message)
    ensures AnalyzeGate(body).Proceed? && complete(AnalyzeGate(body).prompt).Ok?
            && parse(Fences.Clean(complete(AnalyzeGate(body).prompt).value)).Err? ==>
      r == ErrorResponse(500, "Analysis failed: "
                              + parse(Fences.Clean(complete(AnalyzeGate(body).prompt).value)).message)
    ensures r.status in {200, 400, 500}
  {
    match AnalyzeGate(body)
    case Reject400(msg) => ErrorResponse(400, msg)
    case Proceed(prompt) =>
      match complete(prompt)
      case Err(m) => ErrorResponse(500, "Analysis failed: " + m)
      case Ok(raw) =>
        match parse(Fences.Clean(raw))
        case Err(m) => ErrorResponse(500, "Analysis failed: " + m)
        case Ok(analysis) => Response(200, analysis)
  }

  /** A rejected analysis request never reaches the model: its response is
      the same whatever the model or the parser would have done. */
  lemma AnalyzeRejectionSkipsModel(body: Json,
                                   c1: string -> Outcome<string>, p1: string -> Outcome<Json>,
                                   c2: string -> Outcome<string>, p2: string -> Outcome<Json>)
    requires !TruthyField(Field(body, "resumeText")) || !TruthyField(Field(body, "jobDescription"))
    ensures Analyze(body, c1, p1) == Analyze(body, c2, p2) == ErrorResponse(400, AnalyzeRequired)
  {
  }

  /** The JSON body `{ resumeText, jobDescription }` of an analyze request. */
  function AnalyzeBody(resume: string, job: string): (b: Json)
    ensures Field(b, "resumeText") == Some(JStr(resume))
    ensures Field(b, "jobDescription") == Some(JStr(job))
  {
    JObj(map["resumeText" := JStr(resume), "jobDescription" := JStr(job)])
  }

  /** A request carrying two non-empty strings goes ahead, with both texts in
      the prompt. */
  lemma AnalyzeAcceptsNonEmptyText(body: Json, resume: string, job: string)
    requires Field(body, "resumeText") == Some(JStr(resume)) && resume != ""
    requires Field(body, "jobDescription") == Some(JStr(job)) && job != ""
    ensures AnalyzeGate(body) == Proceed(AnalyzePrompt(resume, job))
  {
  }

  /** The field check and prompt construction of POST /api/rewrite-section;
      `sectionType` is optional. */
  function RewriteGate(body: Json): (g: Gate)
    ensures g.Reject400? <==>
      !TruthyField(Field(body, "sectionText")) || !TruthyField(Field(body, "jobDescription"))
    ensures g.Reject400? ==> g.message == RewriteRequired
    ensures g.Proceed? && Field(body, "sectionText").value.JStr? && Field(body, "jobDescription").value.JStr? ==>
      g.prompt == RewritePrompt(SectionKind(Field(body, "sectionType")),
                                Field(body, "jobDescription").value.s, Field(body, "sectionText").value.s)
  {
    var section := Field(body, "sectionText");
    var job := Field(body, "jobDescription");
    if !TruthyField(section) || !TruthyField(job) then Reject400(RewriteRequired)
    else Proceed(RewritePrompt(SectionKind(Field(body, "sectionType")), Display(job.value), Display(section.value)))
  }

  /** The success body `{ rewritten: text.trim() }`. */
  function RewrittenObject(text: string): (b: Json)
    ensures Field(b, "rewritten") == Some(JStr(Trim(text)))
  {
    JObj(map["rewritten" := JStr(Trim(text))])
  }

  /** POST /api/rewrite-section: the model's reply with surrounding white
      space trimmed, under the field `rewritten`. */
  function Rewrite(body: Json, complete: string -> Outcome<string>): (r: Response)
    ensures r.status == 400 <==> RewriteGate(body).Reject400?
    ensures r.status == 200 <==> RewriteGate(body).Proceed? && complete(RewriteGate(body).prompt).Ok?
    ensures r.status == 200 ==>
      Field(r.body, "rewritten") == Some(JStr(Trim(complete(RewriteGate(body).prompt).value)))
    ensures RewriteGate(body).Proceed? && complete(RewriteGate(body).prompt).Err? ==>
      r == ErrorResponse(500, "Rewrite failed: " + complete(RewriteGate(body).prompt).message)
    ensures r.status in {200, 400, 500}
  {
    match RewriteGate(body)
    case Reject400(msg) => ErrorResponse(400, msg)
    case Proceed(prompt) =>
      match complete(prompt)
      case Err(m) => ErrorResponse(500, "Rewrite failed: " + m)
      case Ok(text) => Response(200, RewrittenObject(text))
  }

  /** Without a truthy section type the prompt asks to rewrite the resume
      "section"; the section and the job description still appear verbatim. */
  lemma RewriteDefaultsToSection(body: Json, section: string, job: string)
    requires Field(body, "sectionText") == Some(JStr(section)) && section != ""
    requires Field(body, "jobDescription") == Some(JStr(job)) && job != ""
    requires !TruthyField(Field(body, "sectionType"))
    ensures RewriteGate(body) == Proceed(RewritePrompt("section", job, section))
  {
  }

  /** The rewritten text is the model's reply with nothing but surrounding
      white space removed. */
  lemma RewrittenIsTrimmedReply(body: Json, complete: string -> Outcome<string>)
    ensures RewriteGate(body).Proceed? && complete(RewriteGate(body).prompt).Ok? ==>
            var reply := complete(RewriteGate(body).prompt).value;
            var r := Rewrite(body, complete);
            exists lead, trail ::
              && Field(r.body, "rewritten") == Some(JStr(Trim(reply)))
              && reply == lead + (Trim(reply) + trail)
              && AllSpace(lead) && AllSpace(trail) && IsTrimmed(Trim(reply))
  {
    if RewriteGate(body).Proceed? && complete(RewriteGate(body).prompt).Ok? {
      var reply := complete(RewriteGate(body).prompt).value;
      var lead, trail := TrimSplit(reply);
    }
  }
}

=== FILE: wizard.dfy ===
/**
 The client-side wizard of App.js: the state held by the `App` component,
 the wizard step derived from it, the handlers that change it, the upload
 zone's drop filter, the loading view's step ticker and the score banding of
 the results view.

 React state updates are modelled as pure functions from one state record to
 the next. The asynchronous part of `handleAnalyze` is one transition, Settle,
 that receives what the two HTTP requests returned; the analyze reply is only
 consulted when the request is actually sent.
 */
module Wizard {
  import opened JsString
  import opened JsValue
  import Server

  /** A browser `File`, reduced to what the code reads. */
  datatype FileInfo = FileInfo(name: string, mimeType: string)

  /** The five `useState` hooks of `App`. `results` holds the analysis
      response body (initially `null`); `error` holds whatever was passed to
      `setError` (initially the empty string). */
  datatype State = State(file: Option<FileInfo>, jobDesc: string, loading: bool, results: Json, error: Json)

  const Initial := State(None, "", false, JNull, JStr(""))

  const MissingInputs := "Please upload your resume and paste the job description."
  const ExtractionFailed := "Could not extract text from PDF. Please try a different file."
  const GenericFailure := "Something went wrong. Please try again."

  /** The wizard step shown by the progress bar: 3 once there are results,
      2 while loading, 1 once anything has been entered, 0 before. */
  function Step(st: State): (n: int)
    ensures 0 <= n <= 3
    ensures n == 3 <==> Truthy(st.results)
    ensures n == 2 <==> !Truthy(st.results) && st.loading
    ensures n == 0 <==> !Truthy(st.results) && !st.loading && st.file.None? && st.jobDesc == ""
  {
    if Truthy(st.results) then 3
    else if st.loading then 2
    else if st.file.Some? || st.jobDesc != "" then 1
    else 0
  }

  // ---------------------------------------------------------------------
  // handleAnalyze
  // ---------------------------------------------------------------------

  /** The analyze button's `disabled` condition. */
  predicate AnalyzeDisabled(st: State)
    ensures AnalyzeDisabled(st) <==> st.file.None? || AllSpace(st.jobDesc)
  {
    TrimEmptyIff(st.jobDesc);
    st.file.None? || Trim(st.jobDesc) == ""
  }

  /** The synchronous part of `handleAnalyze`: either the validation message
      is shown and nothing else changes, or the error is cleared and loading
      starts. */
  function PressAnalyze(st: State): (r: State)
    ensures r.file == st.file && r.jobDesc == st.jobDesc && r.results == st.results
    ensures r.error == JStr(MissingInputs) <==> AnalyzeDisabled(st)
    ensures AnalyzeDisabled(st) ==> r.loading == st.loading
    ensures !AnalyzeDisabled(st) ==> r.loading && r.error == JStr("")
  {
    if st.file.None? || Trim(st.jobDesc) == "" then st.(error := JStr(MissingInputs))
    else st.(error := JStr(""), loading := true)
  }

  /** The validation fires exactly when there is no file or the job
      description is blank (empty or white space only). */
  lemma ValidationMeansBlankInput(st: State)
    ensures PressAnalyze(st).error == JStr(MissingInputs) <==> st.file.None? || AllSpace(st.jobDesc)
  {
    TrimEmptyIff(st.jobDesc);
  }

  /** An error raised by an awaited request: the body of the HTTP error
      response, if there was one, and the error's `message`. An error thrown
      by the handler itself has no response. */
  datatype RequestError = RequestError(responseData: Option<Json>, message: string)

  /** What `POST /parse-resume` yielded: the `text` field of the response
      body, or an error. */
  datatype ParseReply = ParseOk(text: Option<string>) | ParseFailed(err: RequestError)

  /** What `POST /analyze` yielded: the response body, or an error. */
  datatype AnalyzeReply = AnalyzeOk(data: Json) | AnalyzeFailed(err: RequestError)

  /** `err.response?.data?.error || err.message || GenericFailure`. */
  function ErrorText(err: RequestError): (e: Json)
    ensures Truthy(e)
    ensures ServerError(err).Some? ==> e == ServerError(err).value
    ensures ServerError(err).None? && err.message != "" ==> e == JStr(err.message)
    ensures ServerError(err).None? && err.message == "" ==> e == JStr(GenericFailure)
  {
    if ServerError(err).Some? then ServerError(err).value
    else if err.message != "" then JStr(err.message)
    else JStr(GenericFailure)
  }

  /** The server's `error` field, when it is present and truthy. */
  function ServerError(err: RequestError): (r: Option<Json>)
    ensures r.Some? <==> err.responseData.Some? && TruthyField(Field(err.responseData.value, "error"))
    ensures r.Some? ==> r == Field(err.responseData.value, "error") && Truthy(r.value)
  {
    if err.responseData.Some? && TruthyField(Field(err.responseData.value, "error"))
    then Field(err.responseData.value, "error")
    else None
  }

  const MinResumeLength := 50

  /** The body of the analyze request. */
  datatype AnalyzeCall = AnalyzeCall(resumeText: string, jobDescription: string)

  /** The analyze request `handleAnalyze` sends once the parse step returned:
      none when parsing failed or the text, trimmed, has fewer than 50 UTF-16
      code units; otherwise the parsed text and the job description, as is. */
  function AnalyzeRequest(st: State, parse: ParseReply): (c: Option<AnalyzeCall>)
    ensures c.Some? <==>
      parse.ParseOk? && parse.text.Some? && Utf16Length(Trim(parse.text.value)) >= MinResumeLength
    ensures c.Some? ==> c.value == AnalyzeCall(parse.text.value, st.jobDesc)
  {
    match parse
    case ParseFailed(_) => None
    case ParseOk(text) =>
      if text.None? || text.value == "" || Utf16Length(Trim(text.value)) < MinResumeLength then None
      else Some(AnalyzeCall(text.value, st.jobDesc))
  }

  /** The awaited part of `handleAnalyze`, from the try block through
      `finally`: results on success, an error message on any failure, and
      loading switched off either way. */
  function Settle(st: State, parse: ParseReply, analyze: AnalyzeReply): (r: State)
    ensures !r.loading
    ensures r.file == st.file && r.jobDesc == st.jobDesc
    ensures parse.ParseFailed? ==> r.results == st.results && r.error == ErrorText(parse.err)
    ensures parse.ParseOk? && AnalyzeRequest(st, parse).None? ==>
      r.results == st.results && r.error == JStr(ExtractionFailed)
    ensures AnalyzeRequest(st, parse).Some? && analyze.AnalyzeOk? ==>
      r.results == analyze.data && r.error == st.error
    ensures AnalyzeRequest(st, parse).Some? && analyze.AnalyzeFailed? ==>
      r.results == st.results && r.error == ErrorText(analyze.err)
  {
    var failure := Failure(st, parse, analyze);
    if failure.Some? then st.(error := ErrorText(failure.value), loading := false)
    else st.(results := analyze.data, loading := false)
  }

  /** The error that reaches the `catch` block, if any: the parse request's,
      the one thrown for a short text, or the analyze request's. */
  function Failure(st: State, parse: ParseReply, analyze: AnalyzeReply): (f: Option<RequestError>)
    ensures f.None? <==> AnalyzeRequest(st, parse).Some? && analyze.AnalyzeOk?
  {
    match parse
    case ParseFailed(e) => Some(e)
    case ParseOk(_) =>
      if AnalyzeRequest(st, parse).None? then Some(RequestError(None, ExtractionFailed))
      else match analyze
        case AnalyzeOk(_) => None
        case AnalyzeFailed(e) => Some(e)
  }

  /** When the parsed text is rejected, no analyze request is made: the
      outcome is the same whatever the analyze endpoint would have said. */
  lemma ShortResumeSkipsAnalyze(st: State, parse: ParseReply, a1: AnalyzeReply, a2: AnalyzeReply)
    requires AnalyzeRequest(st, parse).None?
    ensures Settle(st, parse, a1) == Settle(st, parse, a2)
  {
  }

  /** After a failure the banner always has something to show. */
  lemma FailureShowsBanner(st: State, parse: ParseReply, analyze: AnalyzeReply)
    requires AnalyzeRequest(st, parse).None? || analyze.AnalyzeFailed?
    ensures Truthy(Settle(st, parse, analyze).error)
  {
  }

  // ---------------------------------------------------------------------
  // handleReset, the upload zone and the job-description field
  // ---------------------------------------------------------------------

  /** "Start over": results, file, job description and error are cleared. */
  function Reset(st: State): (r: State)
    ensures r.file.None? && r.jobDesc == "" && r.results == JNull && r.error == JStr("")
    ensures r.loading == st.loading
    ensures !st.loading ==> Step(r) == 0
  {
    st.(results := JNull, file := None, jobDesc := "", error := JStr(""))
  }

  /** `UploadZone.handleDrop`: the first dropped file is taken only when its
      type is exactly application/pdf; otherwise nothing changes. */
  function DropFiles(st: State, files: seq<FileInfo>): (r: State)
    ensures |files| > 0 && files[0].mimeType == Server.PdfMime ==> r == st.(file := Some(files[0]))
    ensures !(|files| > 0 && files[0].mimeType == Server.PdfMime) ==> r == st
    ensures r.file.Some? ==> r.file == st.file || r.file.value.mimeType == Server.PdfMime
  {
    if |files| > 0 && files[0].mimeType == Server.PdfMime then st.(file := Some(files[0])) else st
  }

  /** The hidden file input's `onChange`: the first chosen file, or none when
      the choice was cancelled. The type is not checked here; the input's
      `accept` attribute only guides the browser's file picker. */
  function ChooseFiles(st: State, files: seq<FileInfo>): (r: State)
    ensures r.file == (if |files| > 0 then Some(files[0]) else None)
    ensures r.jobDesc == st.jobDesc && r.loading == st.loading && r.results == st.results && r.error == st.error
  {
    st.(file := if |files| > 0 then Some(files[0]) else None)
  }

  /** Typing in the job-description text area. */
  function EditJob(st: State, text: string): (r: State)
    ensures r.jobDesc == text
    ensures r.file == st.file && r.loading == st.loading && r.results == st.results && r.error == st.error
  {
    st.(jobDesc := text)
  }

  // ---------------------------------------------------------------------
  // The wizard as a state machine
  // ---------------------------------------------------------------------

  datatype Event =
    | Drop(files: seq<FileInfo>)
    | Choose(files: seq<FileInfo>)
    | Type(text: string)
    | ClickAnalyze
    | Settled(parse: ParseReply, analyze: AnalyzeReply)
    | StartOver

  /** The input screen (upload zone, text area, analyze button) is rendered
      when neither loading nor showing results. */
  predicate InputsShown(st: State) {
    !st.loading && !Truthy(st.results)
  }

  /** Which events the rendered page can deliver: input events on the input
      screen (a click only on an enabled button), the request outcome while
      loading, "start over" on the results screen. */
  predicate Enabled(st: State, e: Event) {
    match e
    case Drop(_) => InputsShown(st)
    case Choose(_) => InputsShown(st)
    case Type(_) => InputsShown(st)
    case ClickAnalyze => InputsShown(st) && !AnalyzeDisabled(st)
    case Settled(_, _) => st.loading
    case StartOver => !st.loading && Truthy(st.results)
  }

  function Apply(st: State, e: Event): State {
    match e
    case Drop(files) => DropFiles(st, files)
    case Choose(files) => ChooseFiles(st, files)
    case Type(text) => EditJob(st, text)
    case ClickAnalyze => PressAnalyze(st)
    case Settled(parse, analyze) => Settle(st, parse, analyze)
    case StartOver => Reset(st)
  }

  /** Runs a sequence of user actions and request outcomes; an event the page
      cannot deliver in the current state has no effect. */
  function Run(st: State, events: seq<Event>): State
    decreases |events|
  {
    if events == [] then st
    else Run(if Enabled(st, events[0]) then Apply(st, events[0]) else st, events[1..])
  }

  /** What holds in every state the wizard can reach: while loading there are
      no results, the error is cleared, and a file and a non-blank job
      description were given. */
  predicate Consistent(st: State) {
    st.loading ==>
      && !Truthy(st.results)
      && st.error == JStr("")
      && st.file.Some?
      && !AllSpace(st.jobDesc)
  }

  /** The page starts on step 0 in a consistent state. */
  lemma InitialConsistent()
    ensures Consistent(Initial) && Step(Initial) == 0
  {
  }

  /** `<main>` shows the loading view, the results or the input screen, in
      that order of precedence: a request outcome is only delivered while
      loading, every other event only when not loading, and the analyze
      button can be clicked exactly on the input screen with a file and a
      non-blank job description. */
  lemma ClickNeedsInputs(st: State)
    ensures Enabled(st, ClickAnalyze) <==>
      !st.loading && !Truthy(st.results) && st.file.Some? && !AllSpace(st.jobDesc)
    ensures forall e :: Enabled(st, e) ==> (e.Settled? <==> st.loading)
  {
  }

  lemma ApplyKeepsConsistent(st: State, e: Event)
    requires Consistent(st) && Enabled(st, e)
    ensures Consistent(Apply(st, e))
  {
    if e.ClickAnalyze? {
      ValidationMeansBlankInput(st);
    }
  }

  /** Every state reachable from the initial one is consistent; in particular
      step 2 (loading) is only ever shown with a file and a job description. */
  lemma {:induction false} RunKeepsConsistent(st: State, events: seq<Event>)
    requires Consistent(st)
    ensures Consistent(Run(st, events))
    ensures Step(Run(st, events)) == 2 ==> Run(st, events).file.Some? && !AllSpace(Run(st, events).jobDesc)
    decreases |events|
  {
    if events != [] {
      var next := if Enabled(st, events[0]) then Apply(st, events[0]) else st;
      if Enabled(st, events[0]) {
        ApplyKeepsConsistent(st, events[0]);
      }
      RunKeepsConsistent(next, events[1..]);
    }
  }

  /** Every analyze request the wizard can send passes the server's field
      check: the résumé text is non-empty and so is the job description. */
  lemma ClientRequestPassesServerCheck(st: State, parse: ParseReply)
    ensures Consistent(st) && st.loading && AnalyzeRequest(st, parse).Some? ==>
            var call := AnalyzeRequest(st, parse).value;
            Server.AnalyzeGate(Server.AnalyzeBody(call.resumeText, call.jobDescription)).Proceed?
  {
    if Consistent(st) && st.loading && AnalyzeRequest(st, parse).Some? {
      var call := AnalyzeRequest(st, parse).value;
      assert call.resumeText != "";
      assert call.jobDescription != "" by {
        assert call.jobDescription == st.jobDesc;
      }
      var body := Server.AnalyzeBody(call.resumeText, call.jobDescription);
      Server.AnalyzeAcceptsNonEmptyText(body, call.resumeText, call.jobDescription);
    }
  }

  // ---------------------------------------------------------------------
  // LoadingView's step ticker
  // ---------------------------------------------------------------------

  const LoadingSteps := [
    "Parsing your resume...",
    "Analyzing job description...",
    "Calculating match score...",
    "Optimizing resume content...",
    "Running ATS simulation...",
    "Generating cover letter..."
  ]

  /** One timer tick: advance to the next step unless on the last one. */
  function Tick(s: nat): (r: nat)
    ensures s <= r <= s + 1
    ensures s < |LoadingSteps| ==> r < |LoadingSteps|
    ensures r == s <==> s >= |LoadingSteps| - 1
  {
    if s < |LoadingSteps| - 1 then s + 1 else s
  }

  /** The active step after `n` ticks; the view starts at step 0 each time it
      is mounted. */
  function StepAfter(n: nat): nat {
    if n == 0 then 0 else Tick(StepAfter(n - 1))
  }

  /** The ticker counts up one step per tick and then stays on the last step. */
  lemma {:induction false} StepAfterCapped(n: nat)
    ensures StepAfter(n) == if n < |LoadingSteps| - 1 then n else |LoadingSteps| - 1
  {
    if n > 0 {
      StepAfterCapped(n - 1);
    }
  }

  /** Ticks never move the indicator backwards. */
  lemma {:induction false} StepAfterMonotone(m: nat, n: nat)
    requires m <= n
    ensures StepAfter(m) <= StepAfter(n)
    decreases n - m
  {
    if m < n {
      StepAfterMonotone(m, n - 1);
    }
  }

  // ---------------------------------------------------------------------
  // The score shown on the results screen
  // ---------------------------------------------------------------------

  /** `data.matchScore || 0`. */
  function DisplayedScore(data: Json): (score: Json)
    ensures TruthyField(Field(data, "matchScore")) ==> score == Field(data, "matchScore").value
    ensures !TruthyField(Field(data, "matchScore")) ==> score == JNum(0)
  {
    var v := Field(data, "matchScore");
    if TruthyField(v) then v.value else JNum(0)
  }

  datatype Band = Green | Amber | Red

  /** The colour band of an integer score, used for the number and the ring. */
  function ScoreBand(score: int): (b: Band)
    ensures b == Green <==> score >= 75
    ensures b == Amber <==> 50 <= score < 75
    ensures b == Red <==> score < 50
  {
    if score >= 75 then Green else if score >= 50 then Amber else Red
  }

  function BandRank(b: Band): nat {
    match b
    case Red => 0
    case Amber => 1
    case Green => 2
  }

  /** A higher score never gets a worse band. */
  lemma ScoreBandMonotone(a: int, b: int)
    requires a <= b
    ensures BandRank(ScoreBand(a)) <= BandRank(ScoreBand(b))
  {
  }

  /** A reply without a usable score is shown as 0, in red. */
  lemma MissingScoreShowsZero(data: Json)
    requires !TruthyField(Field(data, "matchScore"))
    ensures DisplayedScore(data) == JNum(0)
    ensures ScoreBand(DisplayedScore(data).n) == Red
  {
  }
}
